=== FILE: README.md ===
# Phone-verified signup and login, as a state machine

This project models the account-provisioning and session-issuance protocol of
the Otp-Webtest service in Dafny. The service lets a user:

1. stage a signup (name, email, phone, password);
2. confirm it with a one-time code from an external OTP gateway;
3. log in later by phone and code;
4. read and update their profile with a seven-day bearer token.

The same rules are written three times in the repository:

- the Express application `server.js`;
- the single serverless router `api/auth.js`;
- the per-endpoint files `api/signup.js`, `api/login.js` and `api/verify-login.js`,
  which cover three of the six handlers.

The model is one abstract state machine shared by all of them.

- **State** (`Store`): two maps. `users` maps an ObjectId to a confirmed user.
  `pending` maps a phone to a staged signup. The password is stored as
  `Hash(...)` of it. The model never reads a digest back or compares two, and
  no response variant has room for one.
- **Handlers** (`Handlers`): each of the six endpoints is one atomic, pure step
  `(state, request, outside answers) -> (response, state', gateway call)`.
  The outside answers are plain parameters:
  - the gateway's `success` flag;
  - the id the store assigns on insert;
  - the clock in seconds;
  - the outcome of checking a token's signature.
- **Identifiers** (`ObjectIds`): an id is a number below 16^24. It is written
  as 24 lower-case hexadecimal digits. It is parsed back by an
  `new ObjectId(string)` that accepts exactly 24 hexadecimal digits of either
  case and throws on anything else.
- **Tokens** (`Tokens`): the claims `{userId, phone, iat, exp}` with
  `exp = iat + 604800`. A presented token is accepted exactly when it is
  non-empty, its signature is genuine and `now < exp`.
- **Routing** (`Routing`, `Text`, `Router`):
  - the single router's endpoint extraction: strip the query, split on `/`,
    drop empty segments, take the last one, default `auth`;
  - the `Bearer ` header check and `split(' ')[1]` token extraction;
  - dispatch with the OPTIONS answer and the 404 fallback;
  - the per-endpoint files' method gate (OPTIONS gives 200, any method but
    POST gives 405).
- **Protocol** (`Protocol`):
  - the store invariant every handler keeps: pending records sit under their
    own phone, user phones are unique and never also pending, every user is
    verified, and no stored name, email or phone is empty;
  - the replay, last-wins and own-email properties;
  - a sign-up-then-fetch example;
  - a trace showing that email uniqueness is *not* kept.

Three behaviours of the code are worth stating plainly:

- Email is not kept unique. Signup refuses an email a user already holds, but
  confirmation does not recheck `users` (`server.js:119-134`), so two pending
  signups that share an email but not a phone both confirm
  (`Protocol.DuplicateEmailTrace`).
- A missing `Authorization` header and a malformed one both get 401
  "Unauthorized". `Routing.ReadAuthorization` tells them apart, and both map
  to the same `Unauthorized` failure.
- A missing signing secret is handled two ways. `api/auth.js:6` falls back to a
  fixed secret, while `server.js:19-22` exits. The secret is not modelled at
  all.

## Model

| member | source | states |
|---|---|---|
| Text.Split | api/auth.js:57-60 | `split` always yields at least one piece, and no piece contains the separator |
| Text.NonEmpty | api/auth.js:60 | `filter(p => p)` keeps only non-empty pieces, each taken from the input, and never yields more than it was given |
| Text.StartsWith | api/auth.js:243 | `startsWith` holds exactly when the string is the prefix followed by some rest |
| Text.JoinSplit | api/auth.js:57 | splitting a string on a character and joining the pieces back gives the string |
| Text.SplitJoin | api/auth.js:60 | pieces free of the separator come back unchanged from splitting their join |
| Text.SplitAppend | api/auth.js:57 | splitting at one separator splits the text before and after it independently |
| Text.NonEmptyAppend | api/auth.js:60 | dropping empty segments distributes over concatenation |
| Routing.Truthy | server.js:61 | (definition, no contract) a field counts as given when present and not the empty string, as JavaScript's `!x` tests a string |
| Routing.PathOf | api/auth.js:57 | the path taken from a URL never contains `?` |
| Routing.EndpointOf | api/auth.js:56-61 | the endpoint is never empty and never contains `/` or `?` |
| Routing.QueryIgnored | api/auth.js:57 | appending a query string to a path never changes the endpoint |
| Routing.DefaultWhenNoSegment | api/auth.js:60-61 | a path of only slashes, or the empty path, names `auth` |
| Routing.EndpointIsLastSegment | api/auth.js:56-61 | a segment followed by any trailing slashes and any query names that segment, whether nothing precedes it or any text ending in `/` does |
| Routing.ReadAuthorization | api/auth.js:237-247 | the header is refused as missing exactly when absent or empty; a token is taken exactly when the header starts with `Bearer `; the token never contains a space |
| Routing.TokenIsTextAfterPrefix | api/auth.js:247 | the token is the text after `Bearer ` up to the next space |
| Routing.BearerRoundTrip | api/auth.js:243-247 | `Bearer <token>` yields exactly that token when it has no space |
| ObjectIds.ParseId | api/auth.js:252 | parsing succeeds exactly on 24 hexadecimal digits |
| ObjectIds.IdText | api/verify-login.js:56 | an id is written as exactly 24 hexadecimal digits |
| ObjectIds.HexRoundTrip | api/verify-login.js:56 | reading back the fixed-width hexadecimal text of a number gives the number |
| ObjectIds.IdRoundTrip | api/verify-login.js:56 | the text an id is written as parses back to that id, so a token's `userId` names its user |
| Tokens.Issue | api/auth.js:148-152 | issued claims name the user's id as text that parses back to it, the phone, and an expiry seven days after issue |
| Tokens.Verify | api/auth.js:250 | a token is accepted exactly when it is non-empty, its signature is genuine and it has not expired; the accepted claims are the genuine ones |
| Tokens.AcceptedWithinLifetime | api/auth.js:217-221 | a token issued at a time is accepted exactly while fewer than 604800 seconds have passed |
| Tokens.LifetimeSamples | api/auth.js:217-221 | a token is accepted 6 days 23 hours after issue and refused 7 days 1 hour after |
| Store.FindUserByPhone | server.js:167 | the lookup returns a user holding the phone, the oldest one, and returns nothing exactly when no user holds it |
| Store.UserExists | server.js:66-68 | (definition, no contract) some user holds the email or the phone |
| Store.FoundPhoneExists | server.js:66-68 | any phone the login lookup can find is refused at signup, whatever the email |
| Store.EmailTakenByOther | server.js:300-303 | (definition, no contract) some user other than the given id holds the email |
| Store.PromoteKeepsConsistent | server.js:119-134 | inserting the promoted user and deleting the pending record together keep the store invariant |
| Store.ReplaceUserKeepsConsistent | server.js:309-312 | rewriting one user in place, keeping phone and verified, with non-empty name and email, keeps the invariant |
| Store.FindUserByPhoneUnique | server.js:204 | under the invariant the phone lookup finds exactly the user holding that phone |
| Handlers.Signup | server.js:57-102 | missing field gives 400 with nothing changed; an existing user with the email or phone gives 400 before any gateway call; otherwise a code is requested; gateway failure gives 500 with nothing staged; success stages exactly the new record under its phone, overwriting a previous one, keeping other phones' records and all users |
| Handlers.VerifySignup | server.js:104-156 | missing field gives 400; the code is checked first and a rejected code gives 400; no pending record gives 400 "expired"; an id already taken gives 500; every error leaves the store unchanged; success adds exactly one user carrying the pending name, email, phone and digest, verified, created now and never updated, deletes that pending record, keeps every other user, and answers with a token and summary for the new id |
| Handlers.Login | server.js:158-187 | never changes the store; missing phone gives 400 and unknown phone gives 404, both without a gateway call; a code is requested exactly when a user holds the phone; gateway failure gives 500 |
| Handlers.VerifyLogin | server.js:189-230 | never changes the store; missing field gives 400; the code is checked before the lookup and a rejected code gives 400; unknown phone gives 404; success issues a token for the user holding the phone with that user's id, name, email and phone |
| Handlers.Authenticate | api/auth.js:237-250 | a missing or non-`Bearer ` header is refused as unauthorized; a presented token that verifies authenticates with the claims it verifies to, and any other is refused as an invalid token |
| Handlers.TokenUser | api/auth.js:250-253 | an id is obtained exactly when the token is accepted and its `userId` is a well-formed id, and it is the id that `userId` names |
| Handlers.IssuedTokenNamesUser | api/auth.js:247-253 | a token issued for an id and presented as `Bearer <token>` before it expires yields exactly that id |
| Handlers.GetUser | api/auth.js:236-272 | never changes the store or calls the gateway; answers 401 exactly when no id is obtained from the token; the profile is returned exactly when the id is a stored user, carrying id, name, email, phone and verified; otherwise 404 |
| Handlers.PutUser | api/auth.js:275-332 | checks run in order: header and token (401), name and email (400), id (401), email held by another user (400), user exists (404), and every error leaves the store unchanged; success changes only the token user's name, email and update time, keeps every other user and all pending records, and answers with the refreshed profile |
| Router.Target | api/auth.js:66-275 | a handler is found exactly for its own endpoint name and method |
| Router.TargetComplete | api/auth.js:66-275 | every handler is reachable through its own endpoint name and method |
| Router.Handle | api/auth.js:66-332 | no handler answers with the preflight, "endpoint not found" or "method not allowed"; login, verify-login and the profile read never change the store; the profile endpoints never call the gateway; only signup and login ask for a code to be sent, only the two verify endpoints ask for one to be checked; only the profile read answers with a profile and only the profile update with an updated one |
| Router.Route | api/auth.js:51-62 | the preflight answer is given exactly to OPTIONS; 404 "endpoint not found" is given exactly when no handler has the path's endpoint as its name and the request's method as its method; neither changes the store or calls the gateway; otherwise the handler with that name and method runs |
| Router.ForwardedPath | api/auth.js:56 | (definition, no contract) the path read as written: the forwarded-for header when set, else the URL |
| Router.DispatchAsWritten | api/auth.js:45-62 | with the forwarded-for header set, whether a handler is found depends only on the header's text and the method, never on the URL |
| Router.Dispatch | api/auth.js:45-62 | the corrected router answers 404 exactly when no handler has the URL's endpoint as its name and the request's method as its method |
| Router.DispatchIgnoresForwardedFor | api/auth.js:56 | the corrected router answers the same whatever the forwarded-for header holds; it agrees with the router as written when the header is unset |
| Router.BareSegment | api/auth.js:60-61 | a lone segment without `/` or `?` is its own endpoint |
| Router.ApiPath | api/auth.js:60-61 | each handler's path `/api/<name>` names that handler |
| Router.ApiRequestReachesHandler | api/auth.js:56-68 | a request to `/api/<name>` with the handler's method runs that handler |
| Router.ForwardedAddressMisroutes | api/auth.js:56-61 | with a client address in the forwarded-for header, the router as written answers every request but a preflight with 404, whatever its URL |
| Router.MisroutedLoginAsWritten | api/auth.js:56 | a login carrying the address 203.0.113.7 gets 404 from the router as written |
| Router.MisroutedLoginCorrected | api/auth.js:56 | the same login reaches the login handler in the corrected router |
| Router.ForwardedForMisroutes | api/auth.js:56 | for that login the two routers answer differently |
| Router.Standalone | api/signup.js:22-28 | the preflight answer is given exactly to OPTIONS and 405 exactly to any other method but POST; for every method but POST the store is unchanged and the gateway is not called |
| Router.StandaloneAgreesWithRouter | api/login.js:15-61 | a POST to a per-endpoint file behaves exactly as the same POST to the corrected router under that endpoint's path, with or without a query, and as the router as written when no forwarded-for header is set |
| Router.SignupFileServesSignup | api/signup.js:16-80 | a POST to the signup file is answered as the corrected router answers a POST to `/api/signup` |
| Router.LoginFileServesLogin | api/login.js:15-61 | a POST to the login file is answered as the corrected router answers a POST to `/api/login` |
| Router.VerifyLoginFileServesVerifyLogin | api/verify-login.js:17-76 | a POST to the verify-login file is answered as the corrected router answers a POST to `/api/verify-login` |
| Protocol.SignupKeepsConsistent | server.js:66-92 | signup keeps the store invariant |
| Protocol.VerifySignupKeepsConsistent | server.js:119-134 | confirmation keeps the store invariant |
| Protocol.PutUserKeepsConsistent | server.js:309-312 | a profile update keeps the store invariant |
| Protocol.HandleKeepsConsistent | api/auth.js:66-332 | every handler keeps the store invariant |
| Protocol.RouteKeepsConsistent | api/auth.js:51-334 | the router keeps the store invariant for any request |
| Protocol.DeliverKeepsConsistent | api/auth.js:45-334 | a request keeps the store invariant whichever deployment serves it: the router as written, the corrected router, or a per-endpoint file |
| Protocol.RunKeepsConsistent | api/auth.js:76-145 | any sequence of requests, each served by any of the deployments, keeps the store invariant |
| Protocol.ReachableIsConsistent | api/auth.js:51-334 | every store reachable from the empty one satisfies the invariant |
| Protocol.StandaloneKeepsConsistent | api/signup.js:40-69 | the per-endpoint files keep the store invariant |
| Protocol.SignupLastWins | server.js:80-92 | two accepted signups for one phone leave only the second payload staged; the users and the other phones' records stay |
| Protocol.ConfirmationNotReplayable | server.js:119-134 | after a successful confirmation, confirming the same phone again creates no user, changes nothing, and reports the signup as expired when the code is accepted |
| Protocol.KeepOwnEmail | server.js:300-307 | a user may resubmit their own email with a new name when no other user holds it |
| Protocol.IssuedTokenFetchesUser | api/auth.js:247-268 | a token issued for a stored user and presented before expiry fetches exactly that user's profile |
| Protocol.LoginFindsConfirmedUser | server.js:204-214 | after a confirmation, a login with the same phone and an accepted code issues a token for the new user |
| Protocol.ExampleSignupStep | server.js:80-97 | the example signup from the empty store stages A's record and answers that a code was sent |
| Protocol.ExampleConfirmStep | server.js:125-151 | confirming the example creates A as a verified user, leaves nothing pending, and answers with the token and summary |
| Protocol.ExampleFetchStep | server.js:247-266 | the token received then fetches A, verified |
| Protocol.SignupThenFetch | api/auth.js:68-268 | the three example requests through the router, in sequence, give those three answers |
| Protocol.DuplicateEmailTrace | server.js:119-132 | two signups sharing an email but not a phone both confirm, leaving two users with one email in a store that still satisfies the invariant |

## Left out

- Store failures (an exception from any connection, query or write) are not
  modelled; the store here never fails. In the source:
  - inside the token-guarded blocks of the profile endpoints they become 401
    "Invalid token", in `server.js` (`server.js:246-269`, `server.js:290-335`)
    and in `api/auth.js` alike;
  - elsewhere inside a handler's `try` they become 500;
  - a connection failure at `api/auth.js:64` happens before the `try` at line
    66, so nothing in the handler catches it.
- A duplicate id on insert is the one store error kept, as 500. It appears as
  the id parameter colliding with an existing user.
- The OTP gateway's transport is reduced to the `success` flag the handlers
  test. A failed `fetch` or a reply that is not JSON throws, and the source
  answers 500 "Internal server error" (`server.js:152-155`,
  `api/auth.js:336-339`, `api/verify-login.js:72-75`). Those 500 answers are
  not modelled: a code the gateway does not accept always gets 400 here.
- Connection caching (`connectDB`), environment loading and the default secret
  are configuration and are not modelled.
- CORS headers, `express.json`, `express.static`, the `sendFile` route and
  `app.listen` are transport and are not modelled.
- Request bodies are modelled as the body `parseBody` yields in `api/auth.js`
  (`api/auth.js:31-43`): a body that is not JSON reads as every field absent,
  so a handler answers 400 for the missing fields. Its stream handling is not
  modelled, and a field that is not a string is not represented. The other two
  ways a body is read behave differently and are not modelled:
  - the per-endpoint files destructure the platform's `req.body`
    (`api/signup.js:31`, `api/login.js:29`, `api/verify-login.js:31`). A
    request left without a parsed body throws there and gets 500
    (`api/signup.js:76-79`, `api/login.js:57-60`, `api/verify-login.js:72-75`),
    where the model answers 400;
  - in `server.js`, `express.json()` (`server.js:43`) answers malformed JSON
    with 400 before any route runs, so before the 401 checks of
    `PUT /api/user`.
- bcrypt's cost, salt and algorithm are not modelled. `Hash(pw)` depends on
  the password alone, while two bcrypt hashes of one password differ. Nothing
  in the model reads a digest back or compares two digests.
- The JWT signature and its encoding are not modelled.
- Error message texts are not modelled; each error is kept as a kind and its
  status code.
- `Date` values are a natural-number clock in seconds.
- Concurrency is not modelled. Each handler runs atomically, in sequence. The
  invariant relies on confirmation's `insertOne` and `deleteOne`
  (`server.js:125-134`) happening together. Two simultaneous signups for one
  phone, or a crash between those two writes, are outside the model.
- Request methods other than GET, POST, PUT and OPTIONS are one value,
  `OtherMethod`, since the handlers only compare against those four.
- `server.js` has no per-endpoint 405: any unrouted method or path falls to
  Express's own 404. Only the per-endpoint files' gate is modelled
  (`Router.Standalone`).
- Tokens.Verify: which claims a token carries is an input (the signature
  verdict), not derived from the token text. So the model cannot state that
  only a token this service signed is accepted; that is the signing secret's
  job.
- Store.FindUserByPhone: when several users share a phone, MongoDB returns one
  in natural order. The model returns the least id. Under the invariant at most
  one user matches, so this choice never shows.
- ObjectIds.ParseId: assumes an `ObjectId(string)` constructor that accepts
  only 24 hexadecimal digits. No driver version is fixed in the repository,
  and older `bson` releases also accept any 12-character string, which this
  model refuses.
  Only string claims are represented: a `userId` claim of another JSON type is
  outside the model. Every token this service issues carries 24 hexadecimal
  digits.
- Handlers.GetUser: a store failure inside the token block maps to 401 in the
  source. The model has no store failures, so this path is absent.
- Handlers.PutUser: the same holds for store failures during the update, which
  the source also answers with 401.

## Findings

| source | as written | input that shows it | evidently intended | confidence | as-written member | corrected member |
|---|---|---|---|---|---|---|
| api/auth.js:56 | the router reads the path from the `x-vercel-forwarded-for` header when set, falling back to the URL; that header carries the client's IP address, not a path | `POST /api/login` with `x-vercel-forwarded-for: 203.0.113.7` gets 404 "Endpoint not found" instead of reaching login | dispatch on the request URL | medium; not executed | Router.DispatchAsWritten, shown by Router.ForwardedForMisroutes | Router.Dispatch, with Router.ApiRequestReachesHandler |

=== FILE: handlers.dfy ===
/** The six request handlers, each one atomic step from a store state to a
    response and the next store state. The answers of the OTP gateway, the
    clock, the id the store assigns on insert and the outcome of checking a
    token's signature are parameters. */
module Handlers {
  import opened Wrappers
  import opened ObjectIds
  import opened Tokens
  import opened Routing
  import opened Store

  /** The JSON body, field by field. A body that does not parse as JSON reads as
      every field absent. */
  datatype Body = Body(
    name: Option<string>, email: Option<string>, phone: Option<string>,
    password: Option<string>, code: Option<string>)

  /** The error kinds a handler answers with. */
  datatype Failure =
    | MissingFields       // a required body field is absent or empty
    | UserAlreadyExists   // signup: a user holds this email or phone
    | OtpSendFailed       // the gateway did not report success sending a code
    | InvalidOtp          // the gateway did not accept the code
    | SignupExpired       // verify-signup: no pending record for the phone
    | UserNotFound
    | Unauthorized        // no `Authorization: Bearer ...` header
    | InvalidToken        // anything failing inside the token-guarded block
    | EmailInUse          // profile update: another user holds the email
    | EndpointNotFound
    | MethodNotAllowed
    | InternalError       // an exception caught at the request boundary

  function StatusOf(f: Failure): (status: nat) {
    match f
    case MissingFields => 400
    case UserAlreadyExists => 400
    case OtpSendFailed => 500
    case InvalidOtp => 400
    case SignupExpired => 400
    case UserNotFound => 404
    case Unauthorized => 401
    case InvalidToken => 401
    case EmailInUse => 400
    case EndpointNotFound => 404
    case MethodNotAllowed => 405
    case InternalError => 500
  }

  /** The user object returned with a session token. */
  datatype Summary = Summary(id: Id, name: string, email: string, phone: Phone)

  /** The user object returned by the profile endpoints. */
  datatype View = View(id: Id, name: string, email: string, phone: Phone, verified: bool)

  function ViewOf(id: Id, u: User): (v: View) {
    View(id, u.name, u.email, u.phone, u.verified)
  }

  /** A response. No variant has room for a password or its digest. */
  datatype Response =
    | Preflight                              // 200, empty body
    | CodeSent                               // 200 {success, message}
    | Session(claims: Claims, summary: Summary) // 200 {success, token, user}
    | Profile(view: View)                    // 200 {success, user}
    | ProfileUpdated(view: View)             // 200 {success, message, user}
    | Error(failure: Failure)
  {
    function Status(): nat {
      if Error? then StatusOf(failure) else 200
    }
  }

  /** The request a handler made to the OTP gateway. */
  datatype GatewayCall = SendCode(phone: Phone) | CheckCode(phone: Phone, code: string)

  /** One handled request: the response, the store afterwards, and the gateway
      call made on the way, if any. */
  datatype Step = Step(response: Response, state: State, call: Option<GatewayCall>)

  predicate SignupComplete(b: Body) {
    Truthy(b.name) && Truthy(b.email) && Truthy(b.phone) && Truthy(b.password)
  }

  predicate CodeComplete(b: Body) {
    Truthy(b.phone) && Truthy(b.code)
  }

  /** POST signup: validate, refuse an existing email or phone, ask the gateway
      to send a code, and only then stage the request under its phone. */
  function Signup(s: State, b: Body, sent: bool, now: nat): (r: Step)
    ensures !SignupComplete(b) ==> r == Step(Error(MissingFields), s, None)
    ensures SignupComplete(b) && UserExists(s.users, b.email.value, b.phone.value) ==>
              r == Step(Error(UserAlreadyExists), s, None)
    ensures SignupComplete(b) && !UserExists(s.users, b.email.value, b.phone.value) ==>
              r.call == Some(SendCode(b.phone.value))
    ensures SignupComplete(b) && !UserExists(s.users, b.email.value, b.phone.value) && !sent ==>
              r.response == Error(OtpSendFailed) && r.state == s
    ensures r.response == CodeSent <==>
              SignupComplete(b) && !UserExists(s.users, b.email.value, b.phone.value) && sent
    ensures r.response.Error? || r.response == CodeSent
    ensures r.state.users == s.users
    ensures r.response.Error? ==> r.state == s
    ensures r.response == CodeSent ==>
              && r.state.pending.Keys == s.pending.Keys + {b.phone.value}
              && r.state.pending[b.phone.value] ==
                   Pending(b.name.value, b.email.value, b.phone.value, Hash(b.password.value), now)
              && forall p :: p in s.pending && p != b.phone.value ==> r.state.pending[p] == s.pending[p]
  {
    if !SignupComplete(b) then Step(Error(MissingFields), s, None)
    else
      var phone := b.phone.value;
      if UserExists(s.users, b.email.value, phone) then Step(Error(UserAlreadyExists), s, None)
      else if !sent then Step(Error(OtpSendFailed), s, Some(SendCode(phone)))
      else
        var record := Pending(b.name.value, b.email.value, phone, Hash(b.password.value), now);
        Step(CodeSent, s.(pending := s.pending[phone := record]), Some(SendCode(phone)))
  }

  /** POST verify-signup: check the code with the gateway first, then promote
      the pending record to a verified user, delete the record and issue a
      token. `freshId` is the id the store assigns to the inserted document; an
      insert under an id already taken fails as a duplicate key. */
  function VerifySignup(s: State, b: Body, valid: bool, freshId: Id, now: nat): (r: Step)
    ensures !CodeComplete(b) ==> r == Step(Error(MissingFields), s, None)
    ensures CodeComplete(b) ==> r.call == Some(CheckCode(b.phone.value, b.code.value))
    ensures CodeComplete(b) && !valid ==> r.response == Error(InvalidOtp)
    ensures CodeComplete(b) && valid && b.phone.value !in s.pending ==> r.response == Error(SignupExpired)
    ensures CodeComplete(b) && valid && b.phone.value in s.pending && freshId in s.users ==>
              r.response == Error(InternalError)
    ensures r.response.Error? ==> r.state == s
    ensures r.response.Error? || r.response.Session?
    ensures r.response.Session? <==>
              CodeComplete(b) && valid && b.phone.value in s.pending && freshId !in s.users
    ensures r.response.Session? ==>
              var phone := b.phone.value;
              var p := s.pending[phone];
              && r.state.users.Keys == s.users.Keys + {freshId}
              && |r.state.users| == |s.users| + 1
              && (var u := r.state.users[freshId];
                  && u.name == p.name && u.email == p.email && u.phone == p.phone
                  && u.password == p.password && u.verified
                  && u.createdAt == now && u.updatedAt.None?)
              && (forall id :: id in s.users ==> r.state.users[id] == s.users[id])
              && r.state.pending == s.pending - {phone}
              && r.response.claims == Issue(freshId, phone, now)
              && r.response.summary == Summary(freshId, p.name, p.email, phone)
  {
    if !CodeComplete(b) then Step(Error(MissingFields), s, None)
    else
      var phone := b.phone.value;
      var call := Some(CheckCode(phone, b.code.value));
      if !valid then Step(Error(InvalidOtp), s, call)
      else if phone !in s.pending then Step(Error(SignupExpired), s, call)
      else if freshId in s.users then Step(Error(InternalError), s, call)
      else
        var p := s.pending[phone];
        var next := State(s.users[freshId := Promote(p, now)], s.pending - {phone});
        Step(Session(Issue(freshId, phone, now), Summary(freshId, p.name, p.email, phone)), next, call)
  }

  /** POST login: the account must exist before the gateway is asked for a
      code. Never changes the store. */
  function Login(s: State, b: Body, sent: bool): (r: Step)
    ensures r.state == s
    ensures !Truthy(b.phone) ==> r.response == Error(MissingFields) && r.call.None?
    ensures Truthy(b.phone) && FindUserByPhone(s.users, b.phone.value).None? ==>
              r.response == Error(UserNotFound) && r.call.None?
    ensures r.call.Some? <==> Truthy(b.phone) && FindUserByPhone(s.users, b.phone.value).Some?
    ensures r.call.Some? ==> r.call.value == SendCode(b.phone.value)
    ensures r.response == CodeSent <==> r.call.Some? && sent
    ensures r.call.Some? && !sent ==> r.response == Error(OtpSendFailed)
  {
    if !Truthy(b.phone) then Step(Error(MissingFields), s, None)
    else if FindUserByPhone(s.users, b.phone.value).None? then Step(Error(UserNotFound), s, None)
    else if !sent then Step(Error(OtpSendFailed), s, Some(SendCode(b.phone.value)))
    else Step(CodeSent, s, Some(SendCode(b.phone.value)))
  }

  /** POST verify-login: the code is checked before the store is read; then a
      token is issued for the user holding the phone. Never changes the store. */
  function VerifyLogin(s: State, b: Body, valid: bool, now: nat): (r: Step)
    ensures r.state == s
    ensures !CodeComplete(b) ==> r == Step(Error(MissingFields), s, None)
    ensures CodeComplete(b) ==> r.call == Some(CheckCode(b.phone.value, b.code.value))
    ensures CodeComplete(b) && !valid ==> r.response == Error(InvalidOtp)
    ensures CodeComplete(b) && valid && FindUserByPhone(s.users, b.phone.value).None? ==>
              r.response == Error(UserNotFound)
    ensures r.response.Error? || r.response.Session?
    ensures r.response.Session? <==>
              CodeComplete(b) && valid && FindUserByPhone(s.users, b.phone.value).Some?
    ensures r.response.Session? ==>
              var id := r.response.summary.id;
              && id in s.users
              && s.users[id].phone == b.phone.value
              && r.response.claims == Issue(id, b.phone.value, now)
              && r.response.summary == Summary(id, s.users[id].name, s.users[id].email, s.users[id].phone)
  {
    if !CodeComplete(b) then Step(Error(MissingFields), s, None)
    else
      var phone := b.phone.value;
      var call := Some(CheckCode(phone, b.code.value));
      if !valid then Step(Error(InvalidOtp), s, call)
      else match FindUserByPhone(s.users, phone)
        case None => Step(Error(UserNotFound), s, call)
        case Some(id) =>
          var u := s.users[id];
          Step(Session(Issue(id, phone, now), Summary(id, u.name, u.email, u.phone)), s, call)
  }

  /** The outcome of the header check and token verification that guard the
      profile endpoints. */
  datatype Auth = Authenticated(claims: Claims) | Denied(failure: Failure)

  function Authenticate(header: Option<string>, check: SignatureCheck, now: nat): (r: Auth)
    ensures !ReadAuthorization(header).Presented? <==> r == Denied(Unauthorized)
    ensures r.Authenticated? ==>
              && ReadAuthorization(header).Presented?
              && Verify(ReadAuthorization(header).token, check, now) == Some(r.claims)
    ensures ReadAuthorization(header).Presented? && Verify(ReadAuthorization(header).token, check, now).Some? ==>
              r == Authenticated(Verify(ReadAuthorization(header).token, check, now).value)
    ensures r.Denied? ==> r.failure == Unauthorized || r.failure == InvalidToken
  {
    match ReadAuthorization(header)
    case Presented(token) =>
      (match Verify(token, check, now)
       case Some(c) => Authenticated(c)
       case None => Denied(InvalidToken))
    case _ => Denied(Unauthorized)
  }

  /** The id a token names, when the token is accepted and its `userId` is a
      well-formed id. */
  function TokenUser(header: Option<string>, check: SignatureCheck, now: nat): (r: Option<Id>)
    ensures r.Some? ==> Authenticate(header, check, now).Authenticated?
    ensures r.Some? <==> Authenticate(header, check, now).Authenticated? &&
                         ParseId(Authenticate(header, check, now).claims.userId).Some?
    ensures r.Some? ==> ParseId(Authenticate(header, check, now).claims.userId) == r
  {
    match Authenticate(header, check, now)
    case Authenticated(c) => ParseId(c.userId)
    case Denied(_) => None
  }

  /** A token issued for `id` and presented as `Bearer <token>` before it
      expires names exactly `id`. */
  lemma IssuedTokenNamesUser(id: Id, phone: Phone, token: string, issued: nat, now: nat)
    requires token != "" && ' ' !in token
    requires now < issued + TokenLifetime
    ensures TokenUser(Some(BearerPrefix + token), Genuine(Issue(id, phone, issued)), now) == Some(id)
  {
    BearerRoundTrip(token);
  }

  /** GET user: the profile of the user the token names, without the password.
      Never changes the store and never calls the gateway. */
  function GetUser(s: State, header: Option<string>, check: SignatureCheck, now: nat): (r: Step)
    ensures r.state == s && r.call.None?
    ensures Authenticate(header, check, now).Denied? ==>
              r.response == Error(Authenticate(header, check, now).failure)
    ensures Authenticate(header, check, now).Authenticated? && TokenUser(header, check, now).None? ==>
              r.response == Error(InvalidToken)
    ensures r.response.Status() == 401 <==> TokenUser(header, check, now).None?
    ensures r.response.Profile? <==>
              TokenUser(header, check, now).Some? && TokenUser(header, check, now).value in s.users
    ensures r.response.Profile? ==>
              var id := TokenUser(header, check, now).value;
              r.response.view == ViewOf(id, s.users[id])
    ensures TokenUser(header, check, now).Some? && TokenUser(header, check, now).value !in s.users ==>
              r.response == Error(UserNotFound)
  {
    match Authenticate(header, check, now)
    case Denied(f) => Step(Error(f), s, None)
    case Authenticated(c) =>
      match ParseId(c.userId)
      case None => Step(Error(InvalidToken), s, None)
      case Some(id) =>
        if id !in s.users then Step(Error(UserNotFound), s, None)
        else Step(Profile(ViewOf(id, s.users[id])), s, None)
  }

  /** PUT user: with an accepted token and both fields present, refuse an email
      another user holds, then set name and email (and the update time) on the
      token's user only. */
  function PutUser(s: State, header: Option<string>, b: Body, check: SignatureCheck, now: nat): (r: Step)
    ensures r.call.None?
    ensures r.response.Error? ==> r.state == s
    ensures r.response.Error? || r.response.ProfileUpdated?
    ensures Authenticate(header, check, now).Denied? ==>
              r.response == Error(Authenticate(header, check, now).failure)
    ensures Authenticate(header, check, now).Authenticated? && !(Truthy(b.name) && Truthy(b.email)) ==>
              r.response == Error(MissingFields)
    ensures Authenticate(header, check, now).Authenticated? && Truthy(b.name) && Truthy(b.email) &&
            TokenUser(header, check, now).None? ==>
              r.response == Error(InvalidToken)
    ensures Truthy(b.name) && Truthy(b.email) && TokenUser(header, check, now).Some? &&
            EmailTakenByOther(s.users, b.email.value, TokenUser(header, check, now).value) ==>
              r.response == Error(EmailInUse)
    ensures r.response.ProfileUpdated? <==>
              && Truthy(b.name) && Truthy(b.email)
              && TokenUser(header, check, now).Some?
              && !EmailTakenByOther(s.users, b.email.value, TokenUser(header, check, now).value)
              && TokenUser(header, check, now).value in s.users
    ensures Truthy(b.name) && Truthy(b.email) && TokenUser(header, check, now).Some? &&
            !EmailTakenByOther(s.users, b.email.value, TokenUser(header, check, now).value) &&
            TokenUser(header, check, now).value !in s.users ==>
              r.response == Error(UserNotFound)
    ensures r.response.ProfileUpdated? ==>
              var id := TokenUser(header, check, now).value;
              var old_u := s.users[id];
              && r.state.pending == s.pending
              && r.state.users.Keys == s.users.Keys
              && (forall j :: j in s.users && j != id ==> r.state.users[j] == s.users[j])
              && r.state.users[id].name == b.name.value && r.state.users[id].email == b.email.value
              && r.state.users[id].phone == old_u.phone && r.state.users[id].password == old_u.password
              && r.state.users[id].verified == old_u.verified
              && r.state.users[id].createdAt == old_u.createdAt
              && r.state.users[id].updatedAt == Some(now)
              && r.response.view == ViewOf(id, r.state.users[id])
  {
    match Authenticate(header, check, now)
    case Denied(f) => Step(Error(f), s, None)
    case Authenticated(c) =>
      if !(Truthy(b.name) && Truthy(b.email)) then Step(Error(MissingFields), s, None)
      else match ParseId(c.userId)
        case None => Step(Error(InvalidToken), s, None)
        case Some(id) =>
          if EmailTakenByOther(s.users, b.email.value, id) then Step(Error(EmailInUse), s, None)
          else if id !in s.users then Step(Error(UserNotFound), s, None)
          else
            var u := s.users[id].(name := b.name.value, email := b.email.value, updatedAt := Some(now));
            Step(ProfileUpdated(ViewOf(id, u)), s.(users := s.users[id := u]), None)
  }
}

=== FILE: object_ids.dfy ===
/** Document identifiers. A MongoDB ObjectId is twelve bytes; it travels in
    tokens and responses as its 24-digit lower-case hexadecimal text. The
    `ObjectId(string)` constructor is taken to accept exactly 24 hexadecimal
    digits of either case and to throw on anything else; older `bson` releases
    also accept any 12-character string. */
module ObjectIds {
  import opened Wrappers

  /** Number of hexadecimal digits in the text form of an id. */
  const HexWidth: nat := 24

  function Pow16(k: nat): (p: nat)
    ensures p >= 1
  {
    if k == 0 then 1 else 16 * Pow16(k - 1)
  }

  /** 16^24 = 2^96: one more than the largest twelve-byte id. */
  const IdBound: nat := 0x1_0000_0000_0000_0000_0000_0000

  lemma {:induction false} Pow16Add(a: nat, b: nat)
    ensures Pow16(a + b) == Pow16(a) * Pow16(b)
    decreases a
  {
    if a > 0 {
      Pow16Add(a - 1, b);
    }
  }

  lemma IdBoundIsPow16()
    ensures Pow16(HexWidth) == IdBound
  {
    assert Pow16(6) == 0x100_0000;
    Pow16Add(6, 6);
    Pow16Add(12, 12);
  }

  /** A twelve-byte id, read as a number below 16^24. */
  type Id = n: nat | n < IdBound

  predicate IsHexChar(ch: char) {
    ('0' <= ch <= '9') || ('a' <= ch <= 'f') || ('A' <= ch <= 'F')
  }

  /** The lower-case digit for a value below 16. */
  function HexDigit(d: nat): (ch: char)
    requires d < 16
    ensures IsHexChar(ch)
  {
    if d < 10 then ('0' as int + d) as char else ('a' as int + d - 10) as char
  }

  function HexValue(ch: char): (d: nat)
    requires IsHexChar(ch)
    ensures d < 16
  {
    if ch <= '9' then ch as int - '0' as int
    else if ch <= 'F' then ch as int - 'A' as int + 10
    else ch as int - 'a' as int + 10
  }

  /** `n` as exactly `width` hexadecimal digits, most significant first. */
  function Hex(n: nat, width: nat): (s: string)
    requires n < Pow16(width)
    ensures |s| == width
    ensures forall k :: 0 <= k < |s| ==> IsHexChar(s[k])
  {
    if width == 0 then ""
    else Hex(n / 16, width - 1) + [HexDigit(n % 16)]
  }

  /** The number a string of hexadecimal digits denotes. */
  function HexToNat(s: string): (n: nat)
    requires forall k :: 0 <= k < |s| ==> IsHexChar(s[k])
    ensures n < Pow16(|s|)
  {
    if |s| == 0 then 0
    else
      var high := HexToNat(s[..|s| - 1]);
      assert high <= Pow16(|s| - 1) - 1;
      high * 16 + HexValue(s[|s| - 1])
  }

  /** `id.toHexString()`, which is also the id's JSON form. */
  function IdText(id: Id): (s: string)
    ensures |s| == HexWidth
    ensures forall k :: 0 <= k < |s| ==> IsHexChar(s[k])
  {
    IdBoundIsPow16();
    Hex(id, HexWidth)
  }

  /** `new ObjectId(s)`: None where the constructor throws. */
  function ParseId(s: string): (r: Option<Id>)
    ensures r.Some? <==> |s| == HexWidth && forall k :: 0 <= k < |s| ==> IsHexChar(s[k])
  {
    if |s| == HexWidth && forall k :: 0 <= k < |s| ==> IsHexChar(s[k]) then
      IdBoundIsPow16();
      Some(HexToNat(s))
    else None
  }

  lemma {:induction false} HexRoundTrip(n: nat, width: nat)
    requires n < Pow16(width)
    ensures HexToNat(Hex(n, width)) == n
    decreases width
  {
    if width > 0 {
      var s := Hex(n, width);
      assert s[..|s| - 1] == Hex(n / 16, width - 1);
      HexRoundTrip(n / 16, width - 1);
      assert HexValue(HexDigit(n % 16)) == n % 16;
    }
  }

  /** The text an id is written as parses back to the same id, so a token's
      `userId` claim names the user it was issued for. */
  lemma IdRoundTrip(id: Id)
    ensures ParseId(IdText(id)) == Some(id)
  {
    IdBoundIsPow16();
    HexRoundTrip(id, HexWidth);
  }
}

=== FILE: protocol.dfy ===
/** Properties of the protocol as a whole: the store invariant every handler
    keeps, what a confirmation replay does, which of two signups for one phone
    is kept, a sign-up-then-fetch example, and the one uniqueness
    the handlers do not keep (email). */
module Protocol {
  import opened Wrappers
  import opened ObjectIds
  import opened Tokens
  import opened Routing
  import opened Store
  import opened Handlers
  import opened Router

  lemma EmptyIsConsistent()
    ensures Consistent(Empty)
  {
  }

  lemma SignupKeepsConsistent(s: State, b: Body, sent: bool, now: nat)
    requires Consistent(s)
    ensures Consistent(Signup(s, b, sent, now).state)
  {
    var r := Signup(s, b, sent, now);
    if r.response == CodeSent {
      var phone := b.phone.value;
      assert forall id :: id in s.users ==> s.users[id].phone != phone;
      assert forall p :: p in r.state.pending && p != phone ==> p in s.pending;
    }
  }

  lemma VerifySignupKeepsConsistent(s: State, b: Body, valid: bool, freshId: Id, now: nat)
    requires Consistent(s)
    ensures Consistent(VerifySignup(s, b, valid, freshId, now).state)
  {
    var r := VerifySignup(s, b, valid, freshId, now);
    if r.response.Session? {
      var phone := b.phone.value;
      assert r.state == State(s.users[freshId := Promote(s.pending[phone], now)], s.pending - {phone});
      PromoteKeepsConsistent(s, phone, freshId, now);
    }
  }

  lemma PutUserKeepsConsistent(s: State, header: Option<string>, b: Body, check: SignatureCheck, now: nat)
    requires Consistent(s)
    ensures Consistent(PutUser(s, header, b, check, now).state)
  {
    var r := PutUser(s, header, b, check, now);
    if r.response.ProfileUpdated? {
      var id := TokenUser(header, check, now).value;
      var u := r.state.users[id];
      assert r.state == s.(users := s.users[id := u]);
      ReplaceUserKeepsConsistent(s, id, u);
    }
  }

  /** Every handler keeps the store invariant, under either router. */
  lemma RouteKeepsConsistent(s: State, path: string, req: Request, env: Env)
    requires Consistent(s)
    ensures Consistent(Route(s, path, req, env).state)
  {
    if req.verb != Options {
      match Target(EndpointOf(path), req.verb)
      case None =>
      case Some(h) => HandleKeepsConsistent(s, h, req, env);
    }
  }

  lemma HandleKeepsConsistent(s: State, h: Handler, req: Request, env: Env)
    requires Consistent(s)
    ensures Consistent(Handle(s, h, req, env).state)
  {
    match h
    case SignupH => SignupKeepsConsistent(s, req.body, env.gatewayOk, env.now);
    case VerifySignupH => VerifySignupKeepsConsistent(s, req.body, env.gatewayOk, env.freshId, env.now);
    case LoginH =>
    case VerifyLoginH =>
    case GetUserH =>
    case PutUserH => PutUserKeepsConsistent(s, req.authorization, req.body, env.signature, env.now);
  }

  /** The deployment a request arrives through: the single router as written,
      the router dispatching on the URL, or one of the per-endpoint files. */
  datatype Front = AsWritten | Corrected | File(file: EndpointFile)

  /** One request, the deployment serving it, and everything it learns from
      outside the store. */
  datatype Event = Event(front: Front, req: Request, env: Env)

  function Deliver(s: State, e: Event): (r: Step) {
    match e.front
    case AsWritten => DispatchAsWritten(s, e.req, e.env)
    case Corrected => Dispatch(s, e.req, e.env)
    case File(f) => Standalone(s, f, e.req, e.env)
  }

  /** Whichever deployment serves a request, the invariant is kept. */
  lemma DeliverKeepsConsistent(s: State, e: Event)
    requires Consistent(s)
    ensures Consistent(Deliver(s, e).state)
  {
    match e.front
    case AsWritten => RouteKeepsConsistent(s, ForwardedPath(e.req), e.req, e.env);
    case Corrected => RouteKeepsConsistent(s, e.req.url, e.req, e.env);
    case File(f) => StandaloneKeepsConsistent(s, f, e.req, e.env);
  }

  /** The store after a sequence of requests, each served by its own deployment,
      handled in order. */
  function Run(s: State, events: seq<Event>): (final: State)
    decreases |events|
  {
    if |events| == 0 then s
    else Run(Deliver(s, events[0]).state, events[1..])
  }

  /** In every store reachable from the empty one, user phones are unique, no
      phone is both a user's and pending, pending records sit under their own
      phone and every user is verified. */
  lemma {:induction false} RunKeepsConsistent(s: State, events: seq<Event>)
    requires Consistent(s)
    ensures Consistent(Run(s, events))
    decreases |events|
  {
    if |events| > 0 {
      DeliverKeepsConsistent(s, events[0]);
      RunKeepsConsistent(Deliver(s, events[0]).state, events[1..]);
    }
  }

  lemma ReachableIsConsistent(events: seq<Event>)
    ensures Consistent(Run(Empty, events))
  {
    EmptyIsConsistent();
    RunKeepsConsistent(Empty, events);
  }

  /** The per-endpoint files keep the invariant too. */
  lemma StandaloneKeepsConsistent(s: State, f: EndpointFile, req: Request, env: Env)
    requires Consistent(s)
    ensures Consistent(Standalone(s, f, req, env).state)
  {
    if req.verb == Post {
      HandleKeepsConsistent(s, HandlerOf(f), req, env);
    }
  }

  /** Two accepted signups for one phone: only the second payload is staged,
      and no other phone's record moves. */
  lemma SignupLastWins(s: State, b1: Body, b2: Body, now1: nat, now2: nat)
    requires SignupComplete(b1) && SignupComplete(b2)
    requires b1.phone == b2.phone
    requires !UserExists(s.users, b1.email.value, b1.phone.value)
    requires !UserExists(s.users, b2.email.value, b2.phone.value)
    ensures var s2 := Signup(Signup(s, b1, true, now1).state, b2, true, now2).state;
            && s2.users == s.users
            && s2.pending == s.pending[b2.phone.value :=
                 Pending(b2.name.value, b2.email.value, b2.phone.value, Hash(b2.password.value), now2)]
  {
    var s1 := Signup(s, b1, true, now1).state;
    var s2 := Signup(s1, b2, true, now2).state;
    var phone := b2.phone.value;
    var expected := s.pending[phone :=
      Pending(b2.name.value, b2.email.value, phone, Hash(b2.password.value), now2)];
    assert s2.pending.Keys == expected.Keys;
    assert forall p :: p in expected ==> s2.pending[p] == expected[p];
  }

  /** Once a confirmation has succeeded, confirming the same phone again creates
      no second user and changes nothing: with an accepted code it reports the
      signup session as expired. */
  lemma ConfirmationNotReplayable(
    s: State, b1: Body, valid1: bool, id1: Id, now1: nat,
    b2: Body, valid2: bool, id2: Id, now2: nat)
    requires VerifySignup(s, b1, valid1, id1, now1).response.Session?
    requires CodeComplete(b2) && b2.phone == b1.phone
    ensures var s1 := VerifySignup(s, b1, valid1, id1, now1).state;
            var r2 := VerifySignup(s1, b2, valid2, id2, now2);
            && |s1.users| == |s.users| + 1
            && r2.state == s1
            && r2.response == (if valid2 then Error(SignupExpired) else Error(InvalidOtp))
  {
  }

  /** A user can resubmit their own email with a new name, provided no other
      account holds that email. */
  lemma KeepOwnEmail(s: State, header: Option<string>, check: SignatureCheck, now: nat, name: string)
    requires TokenUser(header, check, now).Some? && TokenUser(header, check, now).value in s.users
    requires name != ""
    requires var id := TokenUser(header, check, now).value;
             !EmailTakenByOther(s.users, s.users[id].email, id) && s.users[id].email != ""
    ensures var id := TokenUser(header, check, now).value;
            var b := Body(Some(name), Some(s.users[id].email), None, None, None);
            var r := PutUser(s, header, b, check, now);
            && r.response.ProfileUpdated?
            && r.state.users[id].email == s.users[id].email
            && r.state.users[id].name == name
  {
  }

  /** A token issued for a stored user, presented as `Bearer <token>` before
      it expires, fetches exactly that user's profile. */
  lemma IssuedTokenFetchesUser(s: State, id: Id, token: string, issued: nat, now: nat)
    requires id in s.users
    requires token != "" && ' ' !in token
    requires now < issued + TokenLifetime
    ensures GetUser(s, Some(BearerPrefix + token), Genuine(Issue(id, s.users[id].phone, issued)), now) ==
            Step(Profile(ViewOf(id, s.users[id])), s, None)
  {
    IssuedTokenNamesUser(id, s.users[id].phone, token, issued, now);
  }

  /** After a confirmation, a login with the same phone and an accepted code
      issues a token for the user the confirmation created. */
  lemma LoginFindsConfirmedUser(
    s: State, b: Body, valid: bool, freshId: Id, now: nat, code: string, later: nat)
    requires Consistent(s)
    requires VerifySignup(s, b, valid, freshId, now).response.Session?
    requires code != ""
    ensures var s1 := VerifySignup(s, b, valid, freshId, now).state;
            var r := VerifyLogin(s1, Body(None, None, b.phone, None, Some(code)), true, later);
            && r.response.Session?
            && r.response.summary.id == freshId
            && r.response.claims == Issue(freshId, b.phone.value, later)
  {
    var s1 := VerifySignup(s, b, valid, freshId, now).state;
    VerifySignupKeepsConsistent(s, b, valid, freshId, now);
    assert s1.users[freshId].phone == b.phone.value;
    FindUserByPhoneUnique(s1, freshId);
  }

  /** A sign-up-then-fetch example: sign up as A with phone +1555, confirm with an
      accepted code, then fetch the profile with the token received. */
  const ExampleSignup: Request :=
    Request(Post, "/api/signup", None, None, Body(Some("A"), Some("a@x.com"), Some("+1555"), Some("pw"), None))
  const ExampleConfirm: Request :=
    Request(Post, "/api/verify-signup", None, None, Body(None, None, Some("+1555"), None, Some("123456")))

  function ExampleFetch(token: string): (req: Request) {
    Request(Get, "/api/user", None, Some("Bearer " + token), Body(None, None, None, None, None))
  }

  function ExampleStaged(t0: nat): (s: State) {
    State(map[], map["+1555" := Pending("A", "a@x.com", "+1555", Hash("pw"), t0)])
  }

  function ExampleConfirmed(id: Id, t1: nat): (s: State) {
    State(map[id := User("A", "a@x.com", "+1555", Hash("pw"), true, t1, None)], map[])
  }

  /** The example requests reach the handlers their paths name. */
  lemma ExampleSignupRouted(s: State, env: Env)
    ensures Dispatch(s, ExampleSignup, env) == Handle(s, SignupH, ExampleSignup, env)
  {
    ApiRequestReachesHandler(s, ExampleSignup, env, SignupH);
  }

  lemma ExampleConfirmRouted(s: State, env: Env)
    ensures Dispatch(s, ExampleConfirm, env) == Handle(s, VerifySignupH, ExampleConfirm, env)
  {
    ApiRequestReachesHandler(s, ExampleConfirm, env, VerifySignupH);
  }

  lemma ExampleFetchRouted(s: State, env: Env, token: string)
    ensures Dispatch(s, ExampleFetch(token), env) == Handle(s, GetUserH, ExampleFetch(token), env)
  {
    ApiRequestReachesHandler(s, ExampleFetch(token), env, GetUserH);
  }

  lemma ExampleSignupStep(id: Id, t0: nat)
    ensures Handle(Empty, SignupH, ExampleSignup, Env(true, id, t0, Forged)) ==
            Step(CodeSent, ExampleStaged(t0), Some(SendCode("+1555")))
  {
    assert !UserExists(Empty.users, "a@x.com", "+1555");
  }

  lemma ExampleConfirmStep(id: Id, t0: nat, t1: nat)
    ensures Handle(ExampleStaged(t0), VerifySignupH, ExampleConfirm, Env(true, id, t1, Forged)) ==
            Step(Session(Issue(id, "+1555", t1), Summary(id, "A", "a@x.com", "+1555")),
                 ExampleConfirmed(id, t1), Some(CheckCode("+1555", "123456")))
  {
    var r := VerifySignup(ExampleStaged(t0), ExampleConfirm.body, true, id, t1);
    assert r.state.pending == map[];
    assert r.state.users == map[id := User("A", "a@x.com", "+1555", Hash("pw"), true, t1, None)];
  }

  lemma ExampleFetchStep(id: Id, token: string, t1: nat, t2: nat)
    requires token != "" && ' ' !in token
    requires t2 < t1 + TokenLifetime
    ensures Handle(ExampleConfirmed(id, t1), GetUserH, ExampleFetch(token),
                   Env(false, id, t2, Genuine(Issue(id, "+1555", t1)))).response ==
            Profile(View(id, "A", "a@x.com", "+1555", true))
  {
    var header := ExampleFetch(token).authorization;
    BearerRoundTrip(token);
    assert Authenticate(header, Genuine(Issue(id, "+1555", t1)), t2) == Authenticated(Issue(id, "+1555", t1));
    assert TokenUser(header, Genuine(Issue(id, "+1555", t1)), t2) == Some(id);
  }

  /** The three steps together: the code-sent acknowledgement stages the
      record, the confirmation answers with the token and summary and leaves
      nothing pending, and the token then fetches the same user, verified. */
  lemma SignupThenFetch(id: Id, token: string, t0: nat, t1: nat, t2: nat)
    returns (signup: Step, confirm: Step, fetch: Step)
    requires token != "" && ' ' !in token
    requires t2 < t1 + TokenLifetime
    ensures signup == Dispatch(Empty, ExampleSignup, Env(true, id, t0, Forged))
    ensures signup.response == CodeSent && signup.state == ExampleStaged(t0)
    ensures confirm == Dispatch(ExampleStaged(t0), ExampleConfirm, Env(true, id, t1, Forged))
    ensures confirm.response == Session(Issue(id, "+1555", t1), Summary(id, "A", "a@x.com", "+1555"))
    ensures confirm.state == ExampleConfirmed(id, t1) && "+1555" !in confirm.state.pending
    ensures fetch == Dispatch(ExampleConfirmed(id, t1), ExampleFetch(token),
                              Env(false, id, t2, Genuine(Issue(id, "+1555", t1))))
    ensures fetch.response == Profile(View(id, "A", "a@x.com", "+1555", true))
  {
    var env0 := Env(true, id, t0, Forged);
    ExampleSignupRouted(Empty, env0);
    ExampleSignupStep(id, t0);
    signup := Dispatch(Empty, ExampleSignup, env0);
    var env1 := Env(true, id, t1, Forged);
    ExampleConfirmRouted(ExampleStaged(t0), env1);
    ExampleConfirmStep(id, t0, t1);
    confirm := Dispatch(ExampleStaged(t0), ExampleConfirm, env1);
    var env2 := Env(false, id, t2, Genuine(Issue(id, "+1555", t1)));
    ExampleFetchRouted(ExampleConfirmed(id, t1), env2, token);
    ExampleFetchStep(id, token, t1, t2);
    fetch := Dispatch(ExampleConfirmed(id, t1), ExampleFetch(token), env2);
  }

  /** The three steps of the trace below, each from an explicit store. */
  lemma DuplicateEmailStaged(email: string, phone1: Phone, phone2: Phone, t: nat)
    requires email != "" && phone1 != "" && phone2 != "" && phone1 != phone2
    ensures
      var s1 := Signup(Empty, Body(Some("A"), Some(email), Some(phone1), Some("pw"), None), true, t).state;
      Signup(s1, Body(Some("B"), Some(email), Some(phone2), Some("pw"), None), true, t).state ==
        State(map[], map[phone1 := Pending("A", email, phone1, Hash("pw"), t),
                         phone2 := Pending("B", email, phone2, Hash("pw"), t)])
  {
    assert !UserExists(map[], email, phone1);
    assert !UserExists(map[], email, phone2);
  }

  lemma DuplicateEmailFirstConfirmed(email: string, phone1: Phone, phone2: Phone, id1: Id, t: nat)
    requires phone1 != "" && phone1 != phone2
    ensures
      var s2 := State(map[], map[phone1 := Pending("A", email, phone1, Hash("pw"), t),
                                 phone2 := Pending("B", email, phone2, Hash("pw"), t)]);
      VerifySignup(s2, Body(None, None, Some(phone1), None, Some("1")), true, id1, t).state ==
        State(map[id1 := User("A", email, phone1, Hash("pw"), true, t, None)],
              map[phone2 := Pending("B", email, phone2, Hash("pw"), t)])
  {
    var pending := map[phone1 := Pending("A", email, phone1, Hash("pw"), t),
                       phone2 := Pending("B", email, phone2, Hash("pw"), t)];
    assert pending[phone1] == Pending("A", email, phone1, Hash("pw"), t);
    assert Promote(pending[phone1], t) == User("A", email, phone1, Hash("pw"), true, t, None);
    assert pending - {phone1} == map[phone2 := Pending("B", email, phone2, Hash("pw"), t)];
  }

  lemma DuplicateEmailSecondConfirmed(email: string, phone1: Phone, phone2: Phone, id1: Id, id2: Id, t: nat)
    requires phone2 != "" && id1 != id2
    ensures
      var s3 := State(map[id1 := User("A", email, phone1, Hash("pw"), true, t, None)],
                      map[phone2 := Pending("B", email, phone2, Hash("pw"), t)]);
      VerifySignup(s3, Body(None, None, Some(phone2), None, Some("1")), true, id2, t).state ==
        State(map[id1 := User("A", email, phone1, Hash("pw"), true, t, None),
                  id2 := User("B", email, phone2, Hash("pw"), true, t, None)], map[])
  {
    var pending := map[phone2 := Pending("B", email, phone2, Hash("pw"), t)];
    assert pending - {phone2} == map[];
  }

  lemma DuplicateEmailConsistent(email: string, phone1: Phone, phone2: Phone, id1: Id, id2: Id, t: nat)
    requires email != "" && phone1 != "" && phone2 != ""
    requires phone1 != phone2 && id1 != id2
    ensures Consistent(State(map[id1 := User("A", email, phone1, Hash("pw"), true, t, None),
                                 id2 := User("B", email, phone2, Hash("pw"), true, t, None)], map[]))
  {
    var users := map[id1 := User("A", email, phone1, Hash("pw"), true, t, None),
                     id2 := User("B", email, phone2, Hash("pw"), true, t, None)];
    assert users.Keys == {id1, id2};
  }

  /** Email uniqueness is not kept: two signups that share an email but not a
      phone are both staged (signup checks only confirmed users) and both
      confirm (confirmation rechecks nothing), leaving two users with one email
      in a store that still satisfies the invariant. */
  lemma DuplicateEmailTrace(
    email: string, phone1: Phone, phone2: Phone, id1: Id, id2: Id, t: nat)
    requires email != "" && phone1 != "" && phone2 != ""
    requires phone1 != phone2 && id1 != id2
    ensures
      var s1 := Signup(Empty, Body(Some("A"), Some(email), Some(phone1), Some("pw"), None), true, t).state;
      var s2 := Signup(s1, Body(Some("B"), Some(email), Some(phone2), Some("pw"), None), true, t).state;
      var s3 := VerifySignup(s2, Body(None, None, Some(phone1), None, Some("1")), true, id1, t).state;
      var s4 := VerifySignup(s3, Body(None, None, Some(phone2), None, Some("1")), true, id2, t).state;
      && Consistent(s4)
      && id1 in s4.users && id2 in s4.users
      && s4.users[id1].email == email && s4.users[id2].email == email
  {
    var s1 := Signup(Empty, Body(Some("A"), Some(email), Some(phone1), Some("pw"), None), true, t).state;
    var s2 := Signup(s1, Body(Some("B"), Some(email), Some(phone2), Some("pw"), None), true, t).state;
    DuplicateEmailStaged(email, phone1, phone2, t);
    var s3 := VerifySignup(s2, Body(None, None, Some(phone1), None, Some("1")), true, id1, t).state;
    DuplicateEmailFirstConfirmed(email, phone1, phone2, id1, t);
    var s4 := VerifySignup(s3, Body(None, None, Some(phone2), None, Some("1")), true, id2, t).state;
    DuplicateEmailSecondConfirmed(email, phone1, phone2, id1, id2, t);
    assert s4 == State(map[id1 := User("A", email, phone1, Hash("pw"), true, t, None),
                           id2 := User("B", email, phone2, Hash("pw"), true, t, None)], map[]);
    DuplicateEmailConsistent(email, phone1, phone2, id1, id2, t);
  }
}

=== FILE: router.dfy ===
/** Request dispatch, in the two forms the handlers are deployed in: the single
    router that picks a handler from the last path segment and the method, and
    the per-endpoint files that each serve one handler behind a method gate. */
module Router {
  import opened Wrappers
  import opened ObjectIds
  import opened Tokens
  import opened Routing
  import opened Store
  import opened Handlers

  /** The request method. The handlers compare it with a fixed set of verbs, so
      every verb outside that set is one value, `OtherMethod`. */
  datatype Method = Get | Post | Put | Options | OtherMethod

  datatype Request = Request(
    verb: Method, url: string, forwardedFor: Option<string>,
    authorization: Option<string>, body: Body)

  /** Everything the handlers learn from outside the store during one request:
      the gateway's success flag for the one call a request can make, the id an
      insert is given, the clock in seconds, and the outcome of checking the
      presented token's signature. */
  datatype Env = Env(gatewayOk: bool, freshId: Id, now: nat, signature: SignatureCheck)

  datatype Handler = SignupH | VerifySignupH | LoginH | VerifyLoginH | GetUserH | PutUserH

  /** The path segment each handler is served under. */
  function Name(h: Handler): (name: string) {
    match h
    case SignupH => "signup"
    case VerifySignupH => "verify-signup"
    case LoginH => "login"
    case VerifyLoginH => "verify-login"
    case GetUserH => "user"
    case PutUserH => "user"
  }

  function MethodOf(h: Handler): (m: Method) {
    match h
    case GetUserH => Get
    case PutUserH => Put
    case _ => Post
  }

  /** The router's table: the handler for an endpoint and method, if any. */
  function Target(endpoint: string, m: Method): (r: Option<Handler>)
    ensures r.Some? ==> Name(r.value) == endpoint && MethodOf(r.value) == m
    ensures forall h :: Name(h) == endpoint && MethodOf(h) == m ==> r == Some(h)
  {
    if m == Post && endpoint == "signup" then Some(SignupH)
    else if m == Post && endpoint == "verify-signup" then Some(VerifySignupH)
    else if m == Post && endpoint == "login" then Some(LoginH)
    else if m == Post && endpoint == "verify-login" then Some(VerifyLoginH)
    else if m == Get && endpoint == "user" then Some(GetUserH)
    else if m == Put && endpoint == "user" then Some(PutUserH)
    else None
  }

  /** Every handler is reachable through its own name and method. */
  lemma TargetComplete(h: Handler)
    ensures Target(Name(h), MethodOf(h)) == Some(h)
  {
  }

  /** Runs one handler on a request. A handler never gives the answers that
      belong to the dispatch around it: the preflight, "endpoint not found" and
      "method not allowed". */
  function Handle(s: State, h: Handler, req: Request, env: Env): (r: Step)
    ensures r.response != Preflight
    ensures r.response != Error(EndpointNotFound) && r.response != Error(MethodNotAllowed)
    ensures h == LoginH || h == VerifyLoginH || h == GetUserH ==> r.state == s
    ensures h == GetUserH || h == PutUserH ==> r.call.None?
    ensures r.call.Some? && r.call.value.SendCode? ==> h == SignupH || h == LoginH
    ensures r.call.Some? && r.call.value.CheckCode? ==> h == VerifySignupH || h == VerifyLoginH
    ensures r.response.Profile? ==> h == GetUserH
    ensures r.response.ProfileUpdated? ==> h == PutUserH
  {
    match h
    case SignupH => Signup(s, req.body, env.gatewayOk, env.now)
    case VerifySignupH => VerifySignup(s, req.body, env.gatewayOk, env.freshId, env.now)
    case LoginH => Login(s, req.body, env.gatewayOk)
    case VerifyLoginH => VerifyLogin(s, req.body, env.gatewayOk, env.now)
    case GetUserH => GetUser(s, req.authorization, env.signature, env.now)
    case PutUserH => PutUser(s, req.authorization, req.body, env.signature, env.now)
  }

  /** The single router, given the path it dispatches on: a preflight is
      answered before anything else, an unknown endpoint or method gets 404. */
  function Route(s: State, path: string, req: Request, env: Env): (r: Step)
    ensures r.response == Preflight <==> req.verb == Options
    ensures r.response == Error(EndpointNotFound) <==>
              req.verb != Options && forall h :: Name(h) != EndpointOf(path) || MethodOf(h) != req.verb
    ensures r.response == Preflight || r.response == Error(EndpointNotFound) ==>
              r.state == s && r.call.None?
    ensures forall h :: req.verb != Options && Name(h) == EndpointOf(path) && MethodOf(h) == req.verb ==>
              r == Handle(s, h, req, env)
  {
    if req.verb == Options then Step(Preflight, s, None)
    else match Target(EndpointOf(path), req.verb)
      case None => Step(Error(EndpointNotFound), s, None)
      case Some(h) => Handle(s, h, req, env)
  }

  /** The path the router reads, as written: the `x-vercel-forwarded-for`
      header when it is set, the request URL otherwise. */
  function ForwardedPath(req: Request): (path: string) {
    if Truthy(req.forwardedFor) then req.forwardedFor.value else req.url
  }

  /** The router as written, dispatching on `ForwardedPath`: once the header is
      set, whether a handler is found depends on the header alone. */
  function DispatchAsWritten(s: State, req: Request, env: Env): (r: Step)
    ensures Truthy(req.forwardedFor) && req.verb != Options ==>
              (r.response == Error(EndpointNotFound) <==>
                 forall h :: Name(h) != EndpointOf(req.forwardedFor.value) || MethodOf(h) != req.verb)
  {
    Route(s, ForwardedPath(req), req, env)
  }

  /** The router dispatching on the request URL, with no regard to the
      forwarded-for header: 404 exactly when no handler carries the URL's
      endpoint name and the request's method. */
  function Dispatch(s: State, req: Request, env: Env): (r: Step)
    ensures r.response == Error(EndpointNotFound) <==>
              req.verb != Options && forall h :: Name(h) != EndpointOf(req.url) || MethodOf(h) != req.verb
  {
    Route(s, req.url, req, env)
  }

  /** The corrected router answers the same whatever the forwarded-for header
      holds; the as-written one agrees with it whenever the header is unset. */
  lemma DispatchIgnoresForwardedFor(s: State, req: Request, env: Env, header: Option<string>)
    ensures Dispatch(s, req.(forwardedFor := header), env) == Dispatch(s, req, env)
    ensures !Truthy(req.forwardedFor) ==> DispatchAsWritten(s, req, env) == Dispatch(s, req, env)
  {
  }

  /** A segment on its own is its own endpoint. */
  lemma BareSegment(segment: string)
    requires segment != "" && '/' !in segment && '?' !in segment
    ensures EndpointOf(segment) == segment
  {
    Text.SplitNoSeparator(segment, '?');
    Text.SplitNoSeparator(segment, '/');
  }

  /** Each handler's route path `/api/<name>` names its handler. */
  lemma ApiPath(h: Handler)
    ensures EndpointOf("/api/" + Name(h)) == Name(h)
  {
    assert "/api/" + Name(h) == "/api/" + Name(h) + "";
    EndpointIsLastSegment("/api/", Name(h), "", None);
  }

  /** When the forwarded-for header holds a client address (a non-empty text
      with no `/` or `?` that is not an endpoint name), the router as written
      answers every request but a preflight with 404, whatever its URL. */
  lemma ForwardedAddressMisroutes(s: State, req: Request, env: Env)
    requires req.verb != Options
    requires Truthy(req.forwardedFor)
    requires '/' !in req.forwardedFor.value && '?' !in req.forwardedFor.value
    requires Target(req.forwardedFor.value, req.verb).None?
    ensures DispatchAsWritten(s, req, env) == Step(Error(EndpointNotFound), s, None)
  {
    BareSegment(req.forwardedFor.value);
  }

  /** A request whose URL is `/api/<name>` reaches the handler of that name. */
  lemma ApiRequestReachesHandler(s: State, req: Request, env: Env, h: Handler)
    requires req.verb == MethodOf(h) && req.url == "/api/" + Name(h)
    ensures Dispatch(s, req, env) == Handle(s, h, req, env)
  {
    ApiPath(h);
    TargetComplete(h);
  }

  /** The example request of the finding: a login that carries the client
      address 203.0.113.7 in the forwarded-for header. */
  const MisroutedLogin: Request :=
    Request(Post, "/api/login", Some("203.0.113.7"), None, Body(None, None, Some("+15550100"), None, None))

  lemma MisroutedLoginAsWritten(s: State, env: Env)
    ensures DispatchAsWritten(s, MisroutedLogin, env) == Step(Error(EndpointNotFound), s, None)
  {
    var address := MisroutedLogin.forwardedFor.value;
    assert '/' !in address && '?' !in address;
    assert Target(address, Post).None?;
    ForwardedAddressMisroutes(s, MisroutedLogin, env);
  }

  lemma MisroutedLoginCorrected(s: State, env: Env)
    ensures Dispatch(s, MisroutedLogin, env) == Handle(s, LoginH, MisroutedLogin, env)
  {
    ApiRequestReachesHandler(s, MisroutedLogin, env, LoginH);
  }

  /** The login request above gets 404 from the router as written, and reaches
      the login handler in the corrected router. */
  lemma ForwardedForMisroutes(s: State, env: Env)
    ensures DispatchAsWritten(s, MisroutedLogin, env) == Step(Error(EndpointNotFound), s, None)
    ensures Dispatch(s, MisroutedLogin, env) == Handle(s, LoginH, MisroutedLogin, env)
    ensures DispatchAsWritten(s, MisroutedLogin, env) != Dispatch(s, MisroutedLogin, env)
  {
    MisroutedLoginAsWritten(s, env);
    MisroutedLoginCorrected(s, env);
  }

  /** The handlers deployed as files of their own. */
  datatype EndpointFile = SignupFile | LoginFile | VerifyLoginFile

  function HandlerOf(f: EndpointFile): (h: Handler) {
    match f
    case SignupFile => SignupH
    case LoginFile => LoginH
    case VerifyLoginFile => VerifyLoginH
  }

  /** A per-endpoint file: a preflight gets 200, any other method than POST gets
      405, neither touching the store or the gateway. */
  function Standalone(s: State, f: EndpointFile, req: Request, env: Env): (r: Step)
    ensures r.response == Preflight <==> req.verb == Options
    ensures r.response == Error(MethodNotAllowed) <==> req.verb != Options && req.verb != Post
    ensures req.verb != Post ==> r.state == s && r.call.None?
  {
    if req.verb == Options then Step(Preflight, s, None)
    else if req.verb != Post then Step(Error(MethodNotAllowed), s, None)
    else Handle(s, HandlerOf(f), req, env)
  }

  /** A POST to a per-endpoint file behaves exactly as the same POST sent to the
      corrected router under that endpoint's path, with or without a query, and
      as the router as written when no forwarded-for header is set. */
  lemma StandaloneAgreesWithRouter(s: State, f: EndpointFile, req: Request, env: Env, query: string)
    requires req.verb == Post
    ensures Standalone(s, f, req, env) == Dispatch(s, req.(url := "/api/" + Name(HandlerOf(f))), env)
    ensures Standalone(s, f, req, env) ==
            Dispatch(s, req.(url := "/api/" + Name(HandlerOf(f)) + "?" + query), env)
    ensures !Truthy(req.forwardedFor) ==>
              Standalone(s, f, req, env) == DispatchAsWritten(s, req.(url := "/api/" + Name(HandlerOf(f))), env)
  {
    DispatchIgnoresForwardedFor(s, req.(url := "/api/" + Name(HandlerOf(f))), env, None);
    var h := HandlerOf(f);
    ApiPath(h);
    TargetComplete(h);
    var path := "/api/" + Name(h);
    assert '?' !in path by {
      assert "/api/" + Name(h) == "/api" + "/" + Name(h) + "";
      assert path[..5] == "/api/" && path[5..] == Name(h);
    }
    QueryIgnored(path, query);
  }

  /** Each per-endpoint file serves what the corrected router serves under the
      file's own path. */
  lemma SignupFileServesSignup(s: State, req: Request, env: Env)
    requires req.verb == Post
    ensures Standalone(s, SignupFile, req, env) == Dispatch(s, req.(url := "/api/signup"), env)
  {
    assert "/api/" + Name(HandlerOf(SignupFile)) == "/api/signup";
    StandaloneAgreesWithRouter(s, SignupFile, req, env, "");
  }

  lemma LoginFileServesLogin(s: State, req: Request, env: Env)
    requires req.verb == Post
    ensures Standalone(s, LoginFile, req, env) == Dispatch(s, req.(url := "/api/login"), env)
  {
    assert "/api/" + Name(HandlerOf(LoginFile)) == "/api/login";
    StandaloneAgreesWithRouter(s, LoginFile, req, env, "");
  }

  lemma VerifyLoginFileServesVerifyLogin(s: State, req: Request, env: Env)
    requires req.verb == Post
    ensures Standalone(s, VerifyLoginFile, req, env) == Dispatch(s, req.(url := "/api/verify-login"), env)
  {
    assert "/api/" + Name(HandlerOf(VerifyLoginFile)) == "/api/verify-login";
    StandaloneAgreesWithRouter(s, VerifyLoginFile, req, env, "");
  }
}

=== FILE: routing.dfy ===
/** The single router's string handling: which endpoint a request path names,
    and how a bearer token is taken out of the `Authorization` header. */
module Routing {
  import opened Wrappers
  import opened Text

  /** JavaScript truthiness of an optional string: present and non-empty. */
  predicate Truthy(v: Option<string>) {
    v.Some? && v.value != ""
  }

  /** The endpoint name used when the path has no non-empty segment. */
  const DefaultEndpoint: string := "auth"

  /** `url.split('?')[0]`: the path with any query string removed. */
  function PathOf(url: string): (p: string)
    ensures '?' !in p
  {
    Split(url, '?')[0]
  }

  /** The last non-empty `/`-separated segment of the path, or `auth`. */
  function EndpointOf(url: string): (r: string)
    ensures r != ""
    ensures '/' !in r && '?' !in r
  {
    var segments := NonEmpty(Split(PathOf(url), '/'));
    if |segments| == 0 then DefaultEndpoint
    else
      var last := segments[|segments| - 1];
      SplitPiecesWithin(PathOf(url), '/', '?');
      assert last in Split(PathOf(url), '/');
      last
  }

  /** A query string never changes the endpoint. */
  lemma QueryIgnored(path: string, query: string)
    requires '?' !in path
    ensures EndpointOf(path + "?" + query) == EndpointOf(path)
  {
    assert PathOf(path + "?" + query) == path by {
      assert path + "?" + query == path + ['?'] + query;
      SplitAppend(path, query, '?');
      SplitNoSeparator(path, '?');
    }
    assert PathOf(path) == path by {
      SplitNoSeparator(path, '?');
    }
  }

  lemma {:induction false} AllSlashesHaveNoSegments(p: string)
    requires forall k :: 0 <= k < |p| ==> p[k] == '/'
    ensures NonEmpty(Split(p, '/')) == []
    decreases |p|
  {
    if |p| > 0 {
      AllSlashesHaveNoSegments(p[1..]);
      assert Split(p, '/') == [""] + Split(p[1..], '/');
    }
  }

  /** A path of nothing but slashes (the empty path included) names `auth`. */
  lemma DefaultWhenNoSegment(p: string)
    requires forall k :: 0 <= k < |p| ==> p[k] == '/'
    ensures EndpointOf(p) == DefaultEndpoint
  {
    SplitNoSeparator(p, '?');
    AllSlashesHaveNoSegments(p);
  }

  lemma NoQueryInPath(lead: string, segment: string, slashes: string)
    requires '?' !in lead && '?' !in segment
    requires forall k :: 0 <= k < |slashes| ==> slashes[k] == '/'
    ensures '?' !in lead + segment + slashes
  {
    var path := lead + segment + slashes;
    forall k | 0 <= k < |path| ensures path[k] != '?' {
      if k < |lead| { assert path[k] == lead[k]; }
      else if k < |lead| + |segment| { assert path[k] == segment[k - |lead|]; }
      else { assert path[k] == slashes[k - |lead| - |segment|]; }
    }
  }

  /** A segment followed by a run of slashes has that segment as its only
      non-empty piece. */
  lemma SuffixSegments(segment: string, slashes: string)
    requires segment != "" && '/' !in segment
    requires forall k :: 0 <= k < |slashes| ==> slashes[k] == '/'
    ensures NonEmpty(Split(segment + slashes, '/')) == [segment]
  {
    SplitNoSeparator(segment, '/');
    NonEmptySingle(segment);
    if |slashes| > 0 {
      var tail := Split(slashes[1..], '/');
      assert segment + slashes == segment + ['/'] + slashes[1..];
      SplitAppend(segment, slashes[1..], '/');
      assert Split(segment + slashes, '/') == [segment] + tail;
      AllSlashesHaveNoSegments(slashes[1..]);
      NonEmptyAppend([segment], tail);
      assert NonEmpty([segment] + tail) == [segment] + [];
    } else {
      assert segment + slashes == segment;
    }
  }

  /** The pieces of a `?`-free path made of a lead that is empty or ends in a
      slash, a segment, and a run of slashes: the segment is the last one. */
  lemma LastSegmentOfPath(lead: string, segment: string, slashes: string)
    requires lead == "" || lead[|lead| - 1] == '/'
    requires segment != "" && '/' !in segment
    requires forall k :: 0 <= k < |slashes| ==> slashes[k] == '/'
    ensures var segments := NonEmpty(Split(lead + segment + slashes, '/'));
            |segments| > 0 && segments[|segments| - 1] == segment
  {
    SuffixSegments(segment, slashes);
    if lead == "" {
      assert lead + segment + slashes == segment + slashes;
    } else {
      var before := lead[..|lead| - 1];
      assert lead + segment + slashes == before + ['/'] + (segment + slashes);
      SplitAppend(before, segment + slashes, '/');
      NonEmptyAppend(Split(before, '/'), Split(segment + slashes, '/'));
    }
  }

  /** The endpoint of a segment followed by any run of slashes and any query
      string is that segment, whether nothing comes before it or anything
      ending in a slash does. */
  lemma EndpointIsLastSegment(lead: string, segment: string, slashes: string, query: Option<string>)
    requires lead == "" || lead[|lead| - 1] == '/'
    requires segment != "" && '/' !in segment
    requires '?' !in lead && '?' !in segment
    requires forall k :: 0 <= k < |slashes| ==> slashes[k] == '/'
    ensures var path := lead + segment + slashes;
            EndpointOf(if query.Some? then path + "?" + query.value else path) == segment
  {
    var path := lead + segment + slashes;
    NoQueryInPath(lead, segment, slashes);
    if query.Some? { QueryIgnored(path, query.value); }
    SplitNoSeparator(path, '?');
    LastSegmentOfPath(lead, segment, slashes);
  }

  /** What the `Authorization` header yields before the token is verified. */
  datatype Credential = Missing | NotBearer | Presented(token: string)

  const BearerPrefix: string := "Bearer "

  /** A missing or empty header, or one not starting with `Bearer `, is
      refused; otherwise the token is the second space-separated field. */
  function ReadAuthorization(header: Option<string>): (r: Credential)
    ensures r.Missing? <==> !Truthy(header)
    ensures r.Presented? <==> header.Some? && StartsWith(header.value, BearerPrefix)
    ensures r.Presented? ==> ' ' !in r.token
  {
    if !Truthy(header) then Missing
    else if !StartsWith(header.value, BearerPrefix) then NotBearer
    else
      var rest := header.value[|BearerPrefix|..];
      assert header.value == "Bearer" + [' '] + rest;
      SplitAppend("Bearer", rest, ' ');
      Presented(Split(header.value, ' ')[1])
  }

  /** The token is the text after `Bearer ` up to the next space, if any. */
  lemma TokenIsTextAfterPrefix(header: string)
    requires StartsWith(header, BearerPrefix)
    ensures ReadAuthorization(Some(header)) == Presented(Split(header[|BearerPrefix|..], ' ')[0])
  {
    var rest := header[|BearerPrefix|..];
    assert header == "Bearer" + [' '] + rest;
    SplitAppend("Bearer", rest, ' ');
    SplitNoSeparator("Bearer", ' ');
  }

  /** A header written as `Bearer <token>` hands back exactly that token when the
      token has no space (a signed token never has one). */
  lemma BearerRoundTrip(token: string)
    requires ' ' !in token
    ensures ReadAuthorization(Some(BearerPrefix + token)) == Presented(token)
  {
    var header := BearerPrefix + token;
    assert header[..|BearerPrefix|] == BearerPrefix;
    assert header[|BearerPrefix|..] == token;
    TokenIsTextAfterPrefix(header);
    SplitNoSeparator(token, ' ');
  }
}

=== FILE: store.dfy ===
/** The two document collections, `users` and `pendingSignups`, and the
    single-document queries and writes the handlers make on them. */
module Store {
  import opened Wrappers
  import opened ObjectIds

  type Phone = string

  /** The stored result of `bcrypt.hash(password, 10)`. The model never reads a
      digest back or compares two of them; bcrypt's salt, which makes two
      hashes of one password differ, is not represented. */
  datatype Digest = Hash(string)

  /** A staged signup, keyed by phone; `createdAt` is the clock at staging. */
  datatype Pending = Pending(name: string, email: string, phone: Phone, password: Digest, createdAt: nat)

  /** A confirmed account; `updatedAt` is set by a profile update. */
  datatype User = User(
    name: string, email: string, phone: Phone, password: Digest,
    verified: bool, createdAt: nat, updatedAt: Option<nat>)

  datatype State = State(users: map<Id, User>, pending: map<Phone, Pending>)

  /** The store before any request. */
  const Empty: State := State(map[], map[])

  /** `users.findOne({$or: [{email}, {phone}]})` found a document. */
  predicate UserExists(users: map<Id, User>, email: string, phone: Phone) {
    exists id :: id in users && (users[id].email == email || users[id].phone == phone)
  }

  /** `users.findOne({email, _id: {$ne: self}})` found a document. */
  predicate EmailTakenByOther(users: map<Id, User>, email: string, self: Id) {
    exists id :: id in users && id != self && users[id].email == email
  }

  /** `m` is the smallest id in `ids`. */
  predicate IsLeast(m: Id, ids: set<Id>) {
    m in ids && forall j :: j in ids ==> m <= j
  }

  lemma LeastExists(ids: set<Id>)
    requires ids != {}
    ensures exists m :: IsLeast(m, ids)
    decreases |ids|
  {
    var x :| x in ids;
    var rest := ids - {x};
    if rest == {} {
      assert ids == {x};
      assert IsLeast(x, ids);
    } else {
      assert |rest| < |ids|;
      LeastExists(rest);
      var m :| IsLeast(m, rest);
      var least := if x < m then x else m;
      forall j | j in ids
        ensures least <= j
      {
        if j != x { assert j in rest; }
      }
      assert IsLeast(least, ids);
    }
  }

  /** `users.findOne({phone})`. Should several users match, the oldest
      (smallest id: ObjectIds grow with insertion time) is returned. */
  function FindUserByPhone(users: map<Id, User>, phone: Phone): (r: Option<Id>)
    ensures r.Some? ==> r.value in users && users[r.value].phone == phone
    ensures r.None? <==> forall id :: id in users ==> users[id].phone != phone
    ensures r.Some? ==> forall id :: id in users && users[id].phone == phone ==> r.value <= id
  {
    var ids := set id | id in users && users[id].phone == phone;
    assert forall id :: id in users && users[id].phone == phone ==> id in ids;
    if ids == {} then None
    else
      LeastExists(ids);
      var m :| IsLeast(m, ids);
      Some(m)
  }

  /** The account a pending signup becomes: the same fields, verified. */
  function Promote(p: Pending, now: nat): (u: User) {
    User(p.name, p.email, p.phone, p.password, true, now, None)
  }

  /** Any phone the login lookup finds is refused at signup, whatever the
      email that comes with it. */
  lemma FoundPhoneExists(users: map<Id, User>, email: string, phone: Phone)
    requires FindUserByPhone(users, phone).Some?
    ensures UserExists(users, email, phone)
  {
    var id := FindUserByPhone(users, phone).value;
    assert id in users && users[id].phone == phone;
  }

  /** No two users share a phone. */
  predicate PhonesUnique(users: map<Id, User>) {
    forall i, j :: i in users && j in users && users[i].phone == users[j].phone ==> i == j
  }

  /** The store invariant the handlers keep together: pending records sit under
      their own phone, user phones are unique and never also pending, every
      user is verified, and no stored name, email or phone is empty. */
  predicate Consistent(s: State) {
    && (forall p :: p in s.pending ==> s.pending[p].phone == p)
    && (forall p :: p in s.pending ==>
          s.pending[p].name != "" && s.pending[p].email != "" && s.pending[p].phone != "")
    && PhonesUnique(s.users)
    && (forall id :: id in s.users ==> s.users[id].phone !in s.pending)
    && (forall id :: id in s.users ==> s.users[id].verified)
    && (forall id :: id in s.users ==>
          s.users[id].name != "" && s.users[id].email != "" && s.users[id].phone != "")
  }

  /** Promoting the pending record of `phone` to a user under a new id, and
      deleting the record, keeps the invariant. */
  lemma PromoteKeepsConsistent(s: State, phone: Phone, id: Id, now: nat)
    requires Consistent(s) && phone in s.pending && id !in s.users
    ensures Consistent(State(s.users[id := Promote(s.pending[phone], now)], s.pending - {phone}))
  {
    var users := s.users[id := Promote(s.pending[phone], now)];
    assert users[id].phone == phone;
    assert forall j :: j in s.users ==> s.users[j].phone != phone;
    assert PhonesUnique(users) by {
      forall i, j | i in users && j in users && users[i].phone == users[j].phone
        ensures i == j
      {
        if i != id && j != id {
          assert users[i] == s.users[i] && users[j] == s.users[j];
        }
      }
    }
  }

  /** Rewriting one user in place keeps the invariant when the phone and the
      verified flag stay and the new name and email are not empty. */
  lemma ReplaceUserKeepsConsistent(s: State, id: Id, u: User)
    requires Consistent(s) && id in s.users
    requires u.phone == s.users[id].phone && u.verified
    requires u.name != "" && u.email != ""
    ensures Consistent(s.(users := s.users[id := u]))
  {
    var users := s.users[id := u];
    assert forall j :: j in users ==> j in s.users && users[j].phone == s.users[j].phone;
    assert PhonesUnique(users) by {
      forall i, j | i in users && j in users && users[i].phone == users[j].phone
        ensures i == j
      {
        assert s.users[i].phone == s.users[j].phone;
      }
    }
  }

  /** Under the invariant a phone lookup finds the one user holding that phone. */
  lemma FindUserByPhoneUnique(s: State, id: Id)
    requires Consistent(s)
    requires id in s.users
    ensures FindUserByPhone(s.users, s.users[id].phone) == Some(id)
  {
  }
}

=== FILE: text.dfy ===
/** The JavaScript string operations the router relies on: `split` with a
    one-character separator, `startsWith`, and dropping empty strings from an
    array (`filter(p => p)`). */
module Text {

  /** `s.split(c)`: the pieces of `s` between occurrences of `c`, always at least
      one (an empty string splits into `[""]`). */
  function Split(s: string, c: char): (r: seq<string>)
    ensures |r| >= 1
    ensures forall i :: 0 <= i < |r| ==> c !in r[i]
    decreases |s|
  {
    if |s| == 0 then [""] else Prepend(s[0], Split(s[1..], c), c)
  }

  /** The pieces of `[x] + t` from the pieces of `t`: a separator opens a new,
      empty first piece, any other character joins the first piece. */
  function Prepend(x: char, pieces: seq<string>, c: char): (r: seq<string>)
    requires |pieces| >= 1
    ensures |r| >= 1
    ensures x != c ==> |r| == |pieces|
  {
    if x == c then [""] + pieces else [[x] + pieces[0]] + pieces[1..]
  }

  /** Prepending to the front of a concatenation touches only its left part. */
  lemma PrependAppend(x: char, left: seq<string>, right: seq<string>, c: char)
    requires |left| >= 1
    ensures Prepend(x, left + right, c) == Prepend(x, left, c) + right
  {
    if x == c {
      assert [""] + (left + right) == ([""] + left) + right;
    } else {
      assert (left + right)[0] == left[0];
      assert (left + right)[1..] == left[1..] + right;
    }
  }

  /** `parts.join(c)`, the inverse of `Split`. */
  function Join(parts: seq<string>, c: char): (s: string)
    requires |parts| >= 1
  {
    if |parts| == 1 then parts[0] else parts[0] + [c] + Join(parts[1..], c)
  }

  /** `s.startsWith(prefix)`. */
  predicate StartsWith(s: string, prefix: string)
    ensures StartsWith(s, prefix) <==> exists rest :: prefix + rest == s
  {
    if |prefix| <= |s| && s[..|prefix|] == prefix then
      assert prefix + s[|prefix|..] == s;
      true
    else
      false
  }

  /** `parts.filter(p => p)`: the non-empty pieces, in order. */
  function NonEmpty(parts: seq<string>): (r: seq<string>)
    ensures |r| <= |parts|
    ensures forall i :: 0 <= i < |r| ==> r[i] != "" && r[i] in parts
  {
    if |parts| == 0 then []
    else if parts[0] == "" then NonEmpty(parts[1..])
    else [parts[0]] + NonEmpty(parts[1..])
  }

  /** Joining the pieces of a split gives back the original string. */
  lemma {:induction false} JoinSplit(s: string, c: char)
    ensures Join(Split(s, c), c) == s
    decreases |s|
  {
    if |s| > 0 {
      var rest := Split(s[1..], c);
      JoinSplit(s[1..], c);
      if s[0] == c {
        assert Split(s, c) == [""] + rest;
        assert ([""] + rest)[1..] == rest;
      } else if |rest| == 1 {
        assert Split(s, c) == [[s[0]] + rest[0]];
        assert [s[0]] + s[1..] == s;
      } else {
        var r := Split(s, c);
        assert r == [[s[0]] + rest[0]] + rest[1..];
        assert r[1..] == rest[1..];
        assert Join(rest, c) == rest[0] + [c] + Join(rest[1..], c);
        assert [s[0]] + s[1..] == s;
      }
    }
  }

  /** One step of `Split`, for a string written as its first character and the rest. */
  lemma SplitCons(x: char, t: string, c: char)
    ensures Split([x] + t, c) == Prepend(x, Split(t, c), c)
  {
    var s := [x] + t;
    assert s[0] == x && s[1..] == t;
  }

  /** Splitting at one separator splits the two sides independently. */
  lemma {:induction false} SplitAppend(a: string, b: string, c: char)
    ensures Split(a + [c] + b, c) == Split(a, c) + Split(b, c)
    decreases |a|
  {
    if |a| == 0 {
      assert a + [c] + b == [c] + b;
      SplitCons(c, b, c);
    } else {
      var tail := a[1..] + [c] + b;
      assert a + [c] + b == [a[0]] + tail;
      assert a == [a[0]] + a[1..];
      SplitAppend(a[1..], b, c);
      SplitCons(a[0], tail, c);
      SplitCons(a[0], a[1..], c);
      PrependAppend(a[0], Split(a[1..], c), Split(b, c), c);
    }
  }

  /** No piece of a split holds a character the string does not. */
  lemma {:induction false} SplitPiecesWithin(s: string, c: char, x: char)
    requires x !in s
    ensures forall i :: 0 <= i < |Split(s, c)| ==> x !in Split(s, c)[i]
    decreases |s|
  {
    if |s| > 0 {
      assert x !in s[1..] by {
        forall k | 0 <= k < |s[1..]| ensures s[1..][k] != x {
          assert s[1..][k] == s[k + 1];
        }
      }
      SplitPiecesWithin(s[1..], c, x);
      assert s == [s[0]] + s[1..];
      SplitCons(s[0], s[1..], c);
      var rest := Split(s[1..], c);
      if s[0] != c {
        assert x !in [s[0]] + rest[0];
      }
    }
  }

  /** A string without the separator is a single piece. */
  lemma {:induction false} SplitNoSeparator(s: string, c: char)
    requires c !in s
    ensures Split(s, c) == [s]
    decreases |s|
  {
    if |s| > 0 {
      assert s[0] != c;
      assert c !in s[1..] by {
        forall k | 0 <= k < |s[1..]| ensures s[1..][k] != c {
          assert s[1..][k] == s[k + 1];
        }
      }
      SplitNoSeparator(s[1..], c);
      assert [s[0]] + s[1..] == s;
    }
  }

  /** Splitting a join of separator-free pieces gives back the pieces. */
  lemma {:induction false} SplitJoin(parts: seq<string>, c: char)
    requires |parts| >= 1
    requires forall i :: 0 <= i < |parts| ==> c !in parts[i]
    ensures Split(Join(parts, c), c) == parts
    decreases |parts|
  {
    SplitNoSeparator(parts[0], c);
    if |parts| > 1 {
      SplitJoin(parts[1..], c);
      SplitAppend(parts[0], Join(parts[1..], c), c);
      assert [parts[0]] + parts[1..] == parts;
    }
  }

  /** A single non-empty piece survives the filter unchanged. */
  lemma NonEmptySingle(x: string)
    requires x != ""
    ensures NonEmpty([x]) == [x]
  {
    assert [x][1..] == [];
  }

  /** Filtering distributes over concatenation. */
  lemma {:induction false} NonEmptyAppend(a: seq<string>, b: seq<string>)
    ensures NonEmpty(a + b) == NonEmpty(a) + NonEmpty(b)
    decreases |a|
  {
    if |a| > 0 {
      assert (a + b)[0] == a[0];
      assert (a + b)[1..] == a[1..] + b;
      NonEmptyAppend(a[1..], b);
    } else {
      assert a + b == b;
    }
  }
}

=== FILE: tokens.dfy ===
/** Session tokens. A token is a signed JSON Web Token whose payload is
    `{userId, phone}` plus the `iat`/`exp` claims the signing library adds;
    `expiresIn: '7d'` puts `exp` seven days of seconds after `iat`. The
    signature itself is not modelled: whether a presented token carries a
    genuine signature, and which claims it then carries, is an input. */
module Tokens {
  import opened Wrappers
  import opened ObjectIds

  /** Seven days, in the seconds the token clock counts. */
  const TokenLifetime: nat := 7 * 24 * 60 * 60

  datatype Claims = Claims(userId: string, phone: string, iat: nat, exp: nat)

  /** The claims signed for a user at time `now` (seconds). Both signing sites
      put the id's hexadecimal text in `userId`. */
  function Issue(id: Id, phone: string, now: nat): (c: Claims)
    ensures ParseId(c.userId) == Some(id)
    ensures c.phone == phone
    ensures c.iat == now && c.exp == now + TokenLifetime
  {
    IdRoundTrip(id);
    Claims(IdText(id), phone, now, now + TokenLifetime)
  }

  /** What checking the signature of a presented token with the service secret
      yields: the decoded claims, or a failure. */
  datatype SignatureCheck = Genuine(claims: Claims) | Forged

  /** `jwt.verify(token, secret)` at time `now`: an empty token is refused
      outright, a genuine one is refused once `now` reaches `exp`. */
  function Verify(token: string, check: SignatureCheck, now: nat): (r: Option<Claims>)
    ensures r.Some? ==> check == Genuine(r.value) && now < r.value.exp
    ensures r.Some? <==> token != "" && check.Genuine? && now < check.claims.exp
  {
    if token == "" then None
    else match check
      case Forged => None
      case Genuine(c) => if now < c.exp then Some(c) else None
  }

  /** A token issued at `issued` is accepted exactly while fewer than seven days
      have passed. */
  lemma AcceptedWithinLifetime(token: string, id: Id, phone: string, issued: nat, now: nat)
    requires token != ""
    ensures Verify(token, Genuine(Issue(id, phone, issued)), now).Some? <==> now < issued + TokenLifetime
  {
  }

  /** Two sample times: accepted six days and 23 hours after issue,
      refused seven days and one hour after issue. */
  lemma LifetimeSamples(token: string, id: Id, phone: string, issued: nat)
    requires token != ""
    ensures Verify(token, Genuine(Issue(id, phone, issued)), issued + (6 * 24 + 23) * 3600).Some?
    ensures Verify(token, Genuine(Issue(id, phone, issued)), issued + (7 * 24 + 1) * 3600).None?
  {
    AcceptedWithinLifetime(token, id, phone, issued, issued + (6 * 24 + 23) * 3600);
    AcceptedWithinLifetime(token, id, phone, issued, issued + (7 * 24 + 1) * 3600);
  }
}

=== FILE: wrappers.dfy ===
/** The optional value used for JavaScript's `undefined` (an absent body field,
    header, or query result). */
module Wrappers {

  datatype Option<+T> = None | Some(value: T)
}
